=== FILE: README.md ===
# FlappyBird simulation core in Dafny

This project models the simulation core of the browser Flappy-Bird clone. That core is the
`FlappyBird` class with its canvas, DOM and sound removed. The class owns five pieces of state:

- a `gameOver` flag
- a `score`
- the bird's `y` position and `velocity` (its `x` never changes)
- the bird's fixed size
- the list of pipes, each with a left edge `x`, a `topHeight` and a `passed` flag

One frame of `update` does four things in order:

1. It applies gravity to the bird.
2. It moves every pipe left by 2, then either detects a collision or scores the pipe.
3. It drops pipes that have scrolled off the left edge.
4. It spawns a new pipe at the right edge once the newest pipe is more than the spacing away from that edge.

`jump` sets the velocity to the jump impulse. Both `update` and `jump` do nothing once the game is over.

Modules:

- `FlappyBird` (flappy_bird.dfy): the constants, the state datatypes, and the operations `Collides` (checkCollision), `Jump`, `AddPipe`, `Init` (the state the constructor has built by static/js/game.js:38, before its `gameLoop` call), `StepPipe` and `SweepPipes` (the body of the update loop), `Cull` (the off-screen filter), `Advance` (physics, loop and filter) and `SpawnIfDue` (the spawn rule), `Update` (one frame) and `Play` (the frame loop interleaved with jump presses).
- `CollisionFacts`: the collision rule proved equal to a geometric reading. The bird collides exactly when the open interior of its square shares a point with a pipe segment, the region above the ceiling or the region below the ground.
- `PipeFacts`: the filter keeps the relative order of the pipes. On an ascending list it removes exactly a prefix.
- `TickFacts`: the effect of one running frame on the game-over flag, the score and the pipe list. It also proves that a finished game is frozen.
- `Invariant`: the reachable-state invariant. The pipe list is non-empty, strictly ascending in `x`, and its newest pipe is within one spacing of the right edge. A frame from a valid state therefore never throws.

Numbers are exact `real`s. The draw of `Math.random()` that sizes a new pipe is passed in as a parameter `r` with `0 <= r < 1`. The field's width and height are parameters of `Init`. The constructor's `gameLoop` call (static/js/game.js:41) runs one frame before it returns and before any press can arrive, so a session, and a restart, is `Play(Init(width, height, r), [Frame(r1)] + events)`. `Invariant.ConstructedState` states what that first frame leaves behind.

`update` reads the last pipe without checking that one exists (static/js/game.js:139). The model's `Update` returns `Step(game, threw)`. When the filter has left no pipe, `threw` is true and `game` holds the state written up to that point. `Invariant.SpacedNoThrow` proves that this cannot happen on a field with width > 142, whatever its height: whether the frame throws depends only on the pipes' left edges. `Invariant.UpdateValid` adds height >= 250 only so that spawned top heights also stay in their range. `Invariant.NarrowFieldThrows` exhibits a state on a 100-wide field where the frame does throw.

Two details of the loop decide what the model does:

- **Pipe order.** Pipes are appended at the right edge (static/js/game.js:55), so the list ascends in `x`, oldest first.
- **Collisions inside the loop.** The `return` inside `forEach` (static/js/game.js:124) only skips scoring for the pipe that collided. Later pipes in the same frame are still moved, still checked and can still score, and the filter and the spawn rule still run.

## Model

| member | source | states |
|---|---|---|
| FlappyBird.Collides | static/js/game.js:86-105 | Outside the field (top < 0 or bottom > height) is always a collision. Inside the field, no strict horizontal overlap, or sitting within the gap, is never a collision; touching an edge does not count. Strict overlap outside the gap is a collision. |
| CollisionFacts.CollidesIffSharedPoint | static/js/game.js:86-105 | Collision holds exactly when some point strictly inside the bird's square is solid: in a pipe column outside the gap, above the ceiling or below the ground. |
| CollisionFacts.CollisionWitness | static/js/game.js:93-102 | For every collision, gives a concrete solid point inside the bird's square. |
| FlappyBird.Jump | static/js/game.js:44-48 | After game over nothing changes. Otherwise the velocity becomes exactly -10, and position, pipes, score and flag are unchanged. |
| FlappyBird.SpawnHeight | static/js/game.js:50-53 | For a draw in [0,1) and height >= 250, the top height lies in [50, height - 200]. It is strictly below height - 200 when height > 250. |
| FlappyBird.SpawnHeightCovers | static/js/game.js:51-53 | On a field higher than 250, every height in [50, height - 200) is produced by some draw in [0,1), so the spawn can reach the whole range. |
| FlappyBird.AddPipe | static/js/game.js:50-60 | Appends exactly one pipe: at x = width, unscored, with top height in the spawn range. Earlier pipes and all other fields are untouched. |
| FlappyBird.Init | static/js/game.js:9-38 | The state built before the constructor's `gameLoop` call is running with score 0. The bird is at (width/3, height/2) with velocity 0. There is exactly one unscored pipe, at x = width. |
| FlappyBird.StepPipe | static/js/game.js:115-133 | Each pipe moves left by 2 and keeps its top height. It collides exactly when checkCollision holds after the move; a colliding pipe keeps its flag and does not score. Otherwise it scores exactly when it was unpassed and its moved edge is left of the bird. A set flag never reverts. |
| FlappyBird.SweepPipes | static/js/game.js:115-133 | Every pipe is stepped in order, with no early exit. A collision is reported exactly when some pipe collides. The points gained equal the number of flags flipped from false to true. |
| FlappyBird.Flips | static/js/game.js:128-130 | The number of newly set flags is at most the number of pipes. |
| FlappyBird.Cull | static/js/game.js:136 | The filter never lengthens the list. Every kept pipe is on screen (x + 60 > 0). |
| PipeFacts.CullExact | static/js/game.js:136 | A pipe is kept exactly when it is in the input and on screen. |
| FlappyBird.Update | static/js/game.js:107-142 | A finished game is returned unchanged. On a running frame: velocity' = velocity + 0.6, y' = y + velocity', and x is unchanged. The score never decreases. A frame throws exactly when no pipe survives the filter. Its parts are `Fall` (lines 111-112), `Advance` (lines 110-136) and `SpawnIfDue` (lines 139-140); their effects are stated here and in `TickFacts.UpdatePipes`. |
| FlappyBird.Play | static/js/game.js:177-181 | Across any run of frames and jump presses, the score never decreases and game over is never cleared. |
| PipeFacts.CullAppend | static/js/game.js:136 | Filtering distributes over concatenation, so kept pipes keep their relative order. |
| PipeFacts.CullSuffix | static/js/game.js:136 | On an ascending list, the filter removes exactly a prefix, and every pipe in that prefix is off screen. The rest is kept whole and in order. |
| PipeFacts.CullKeepsOnScreen | static/js/game.js:136 | A list of on-screen pipes passes the filter whole. |
| TickFacts.SweepCollidedIffHit | static/js/game.js:115-125 | The loop reports a collision exactly when some pipe collides with the bird after its move. |
| TickFacts.UpdateGameOverIffHit | static/js/game.js:115-125 | A running frame sets game over exactly when some pipe, after its move, collides with the bird after its fall. |
| TickFacts.OutOfFieldEndsGame | static/js/game.js:99-125 | A bird that is above the ceiling or below the ground after its fall ends the game, whenever at least one pipe exists. |
| TickFacts.UpdateScore | static/js/game.js:127-132 | The new score is the old score plus the number of flags flipped this frame. A pipe that collided keeps its flag. No flag is cleared. |
| TickFacts.FlipsCountsScorable | static/js/game.js:119-132 | The number of flipped flags equals the number of pipes that were unpassed, did not collide, and whose moved edge is left of the bird. |
| TickFacts.UpdatePipes | static/js/game.js:135-141 | After a running frame the pipe list is the moved pipes with off-screen ones dropped. If the newest kept pipe is left of width - 200, exactly one new unscored pipe follows at x = width. If nothing is kept, the frame throws. |
| TickFacts.FrozenWhenOver | static/js/game.js:107-108 | Once the game is over, any run of frames and presses leaves the state unchanged. |
| TickFacts.SpawnRangeExample | static/js/game.js:50-53 | On a 600-high field every spawned top height lies in [50, 400). |
| Invariant.InitValid | static/js/game.js:9-38 | A fresh game on a field with width > 142 and height >= 250 satisfies the invariant: a non-empty pipe list, ascending in x, newest pipe in [width - 200, width], top heights in range, bird at width/3. |
| Invariant.ConstructedState | static/js/game.js:38-41 | After the constructor's first frame on a valid field the game is running and valid, with score 0, the bird at (width/3, height/2 + 0.6) with velocity 0.6, and the one pipe moved to x = width - 2. |
| Invariant.JumpValid | static/js/game.js:44-48 | Jumping keeps the invariant. |
| Invariant.UpdateValid | static/js/game.js:135-141 | A frame from a valid state never reaches the unguarded read of an empty list, and it yields a valid state. |
| Invariant.SpacedNoThrow | static/js/game.js:135-141 | On a field wider than 142, of any height, a frame from a state whose pipes are non-empty, ascending and newest within 200 of the right edge never reads the last pipe of an empty list, and leaves a state of the same kind. |
| Invariant.PlayValid | static/js/game.js:177-181 | Any run of frames and presses from a valid state never throws and stays valid. |
| Invariant.NarrowFieldThrows | static/js/game.js:139 | On a 100-wide field, the last pipe scrolls off before a new one spawns, and the frame throws without ending the game. |

## Left out

- Drawing (`draw`): canvas output only; it changes no state.
- Sound (`playSound`, the audio context): Web Audio side effects, with no effect on game state once the audio context exists. The constructor creates that context without a guard, so a browser without Web Audio would throw before the game starts; the model assumes it exists.
- Event listeners for the space key and canvas clicks: modelled as `Press` events that call `Jump`.
- `gameLoop` and `requestAnimationFrame`: modelled as the `Frame` events of `Play`, one `Update` each.
- DOM writes of the score and game-over text: presentation only. The `score` field holds the value shown.
- `restartGame` and `window.onload`: each constructs a new game, which the model writes as `Play(Init(width, height, r), [Frame(r1)] + events)`. The old instance's loop and listeners keep running in the browser, which is a resource matter and not game logic.
- IEEE-754 rounding: the model uses exact real arithmetic.
- FlappyBird.Play: stops at the first frame that throws. In the browser, the frame loop would stop there too, but the jump listeners would keep writing the velocity of the frozen state. That only arises outside the valid field sizes.
- Numeric `score` width: the JavaScript number is modelled as an unbounded `nat`.

=== FILE: collision_facts.dfy ===
/**
  The collision rule against an independent geometric reading: the bird hits
  something exactly when the open interior of its square shares a point with
  a pipe segment, the region above the ceiling or the region below the ground.
*/
module CollisionFacts {
  import opened FlappyBird

  function Max(a: real, b: real): (m: real) { if a < b then b else a }
  function Min(a: real, b: real): (m: real) { if a < b then a else b }

  /** (px, py) lies strictly inside the bird's square. */
  predicate Inside(b: Bird, px: real, py: real) {
    b.x < px < b.x + BirdSize && b.y < py < b.y + BirdSize
  }

  /** (px, py) is solid: in a pipe's column outside its gap, above the ceiling, or below the ground. */
  predicate Solid(height: real, p: Pipe, px: real, py: real) {
    || (p.x < px < p.x + PipeWidth && (py < p.topHeight || py > p.topHeight + PipeGap))
    || py < 0.0
    || py > height
  }

  /** A witness point for a collision, chosen in whichever region is hit. */
  lemma CollisionWitness(b: Bird, height: real, p: Pipe) returns (px: real, py: real)
    requires Collides(b, height, p)
    ensures Inside(b, px, py) && Solid(height, p, px, py)
  {
    var colLeft := Max(b.x, p.x);
    var colRight := Min(b.x + BirdSize, p.x + PipeWidth);
    if Overlaps(b, p) && b.y < p.topHeight {
      px, py := (colLeft + colRight) / 2.0, (b.y + Min(p.topHeight, b.y + BirdSize)) / 2.0;
    } else if Overlaps(b, p) && b.y + BirdSize > p.topHeight + PipeGap {
      px, py := (colLeft + colRight) / 2.0, (Max(b.y, p.topHeight + PipeGap) + b.y + BirdSize) / 2.0;
    } else if b.y < 0.0 {
      px, py := b.x + BirdSize / 2.0, (b.y + Min(0.0, b.y + BirdSize)) / 2.0;
    } else {
      px, py := b.x + BirdSize / 2.0, (Max(b.y, height) + b.y + BirdSize) / 2.0;
    }
  }

  /** checkCollision is true exactly when the bird's interior meets something solid. */
  lemma CollidesIffSharedPoint(b: Bird, height: real, p: Pipe)
    ensures Collides(b, height, p) <==> exists px, py :: Inside(b, px, py) && Solid(height, p, px, py)
  {
    if Collides(b, height, p) {
      var px, py := CollisionWitness(b, height, p);
    }
  }
}

=== FILE: flappy_bird.dfy ===
/**
  The simulation core of the FlappyBird game class: the bird, the pipes, the
  collision rule and one frame of the update loop, with the canvas, the DOM
  and the sound stripped away. All quantities are exact reals; the random
  draw that sizes a new pipe is a parameter `r` with `0 <= r < 1`.
*/
module FlappyBird {

  // Tunables of the game class: the bird, pipe and spawn constants, and the
  // scroll speed written as a literal in update.
  const Gravity: real := 0.6
  const JumpVelocity: real := -10.0
  const BirdSize: real := 30.0
  const PipeSpacing: real := 200.0
  const PipeGap: real := 150.0
  const PipeWidth: real := 60.0
  const PipeSpeed: real := 2.0
  const MinHeight: real := 50.0

  /** The bird's top-left corner and its vertical velocity (positive is down). */
  datatype Bird = Bird(x: real, y: real, velocity: real)

  /** One pipe pair: its left edge, the height of its top segment, and whether it was scored. */
  datatype Pipe = Pipe(x: real, topHeight: real, passed: bool)

  /** The whole session state; `pipes` is in spawn order (oldest first). */
  datatype Game = Game(width: real, height: real, gameOver: bool, score: nat, bird: Bird, pipes: seq<Pipe>)

  /** The result of one frame: the new state, and whether the frame threw before finishing. */
  datatype Step = Step(game: Game, threw: bool)

  /** What reaches the game between two inspections: a frame with its random draw, or a jump request. */
  datatype Event = Frame(r: real) | Press

  /** The bird's square leaves the field through the ceiling or the ground. */
  predicate OutOfField(b: Bird, height: real) {
    b.y < 0.0 || b.y + BirdSize > height
  }

  /** The bird's square strictly overlaps the pipe's horizontal span. */
  predicate Overlaps(b: Bird, p: Pipe) {
    b.x + BirdSize > p.x && b.x < p.x + PipeWidth
  }

  /** The bird's square lies within the pipe's gap, edges included. */
  predicate InGap(b: Bird, p: Pipe) {
    p.topHeight <= b.y && b.y + BirdSize <= p.topHeight + PipeGap
  }

  /** checkCollision: does the bird hit this pipe, the ceiling or the ground? */
  function Collides(b: Bird, height: real, p: Pipe): (hit: bool)
    ensures OutOfField(b, height) ==> hit
    ensures !OutOfField(b, height) && (!Overlaps(b, p) || InGap(b, p)) ==> !hit
    ensures !OutOfField(b, height) && Overlaps(b, p) && !InGap(b, p) ==> hit
  {
    var birdRight := b.x + BirdSize;
    var birdLeft := b.x;
    var birdTop := b.y;
    var birdBottom := b.y + BirdSize;
    if birdRight > p.x && birdLeft < p.x + PipeWidth
       && (birdTop < p.topHeight || birdBottom > p.topHeight + PipeGap) then
      true
    else
      birdBottom > height || birdTop < 0.0
  }

  /** jump: a no-op once the game is over, otherwise the velocity becomes the jump impulse. */
  function Jump(g: Game): (g': Game)
    ensures g.gameOver ==> g' == g
    ensures !g.gameOver ==> g'.bird.velocity == JumpVelocity
    ensures g'.gameOver == g.gameOver && g'.score == g.score && g'.pipes == g.pipes
    ensures g'.width == g.width && g'.height == g.height
    ensures g'.bird.x == g.bird.x && g'.bird.y == g.bird.y
  {
    if g.gameOver then g
    else g.(bird := g.bird.(velocity := JumpVelocity))
  }

  /** A draw below one scales a non-negative span to at most the span, and strictly less when the span is positive. */
  lemma ScaleBelow(r: real, d: real)
    requires 0.0 <= r < 1.0 && d >= 0.0
    ensures 0.0 <= r * d <= d
    ensures d > 0.0 ==> r * d < d
  {
    assert d - r * d == (1.0 - r) * d;
  }

  /** A product of positive reals is positive. */
  lemma PosProduct(a: real, b: real)
    requires a > 0.0 && b > 0.0
    ensures a * b > 0.0
  {
  }

  /** Scaling a positive span by a factor outside [0, 1) leaves [0, span). */
  lemma ScaleOutside(r: real, d: real)
    requires d > 0.0
    ensures r < 0.0 ==> r * d < 0.0
    ensures r >= 1.0 ==> r * d >= d
  {
    if r < 0.0 {
      assert r * d == 0.0 - (0.0 - r) * d;
      PosProduct(0.0 - r, d);
    }
    if r > 1.0 {
      assert r * d - d == (r - 1.0) * d;
      PosProduct(r - 1.0, d);
    }
  }

  /** The draw that maps to a given offset `a` inside a positive span `d` lies in [0, 1). */
  lemma DrawFor(a: real, d: real) returns (r: real)
    requires 0.0 <= a < d
    ensures r * d == a && 0.0 <= r < 1.0
  {
    r := a / d;
    assert r * d == a;
    ScaleOutside(r, d);
  }

  /** Height of a new pipe's top segment for the random draw `r`: uniform over [MinHeight, maxHeight). */
  function SpawnHeight(height: real, r: real): (h: real)
    requires 0.0 <= r < 1.0
    ensures height >= 2.0 * MinHeight + PipeGap ==> MinHeight <= h <= height - PipeGap - MinHeight
    ensures height > 2.0 * MinHeight + PipeGap ==> h < height - PipeGap - MinHeight
  {
    var maxHeight := height - PipeGap - MinHeight;
    var span := maxHeight - MinHeight;
    if span >= 0.0 then ScaleBelow(r, span); r * span + MinHeight
    else r * span + MinHeight
  }

  /** Every height of the spawn range [MinHeight, maxHeight) is reached by some draw. */
  lemma SpawnHeightCovers(height: real, h: real)
    requires height > 2.0 * MinHeight + PipeGap
    requires MinHeight <= h < height - PipeGap - MinHeight
    ensures exists r :: 0.0 <= r < 1.0 && SpawnHeight(height, r) == h
  {
    var span := height - PipeGap - MinHeight - MinHeight;
    var r := DrawFor(h - MinHeight, span);
    assert SpawnHeight(height, r) == h;
  }

  /** addPipe: append an unscored pipe at the right edge of the field. */
  function AddPipe(g: Game, r: real): (g': Game)
    requires 0.0 <= r < 1.0
    ensures |g'.pipes| == |g.pipes| + 1 && g'.pipes[..|g.pipes|] == g.pipes
    ensures g'.pipes[|g.pipes|].x == g.width && !g'.pipes[|g.pipes|].passed
    ensures g.height >= 2.0 * MinHeight + PipeGap ==>
              MinHeight <= g'.pipes[|g.pipes|].topHeight <= g.height - PipeGap - MinHeight
    ensures g.height > 2.0 * MinHeight + PipeGap ==>
              g'.pipes[|g.pipes|].topHeight < g.height - PipeGap - MinHeight
    ensures g' == g.(pipes := g'.pipes)
  {
    g.(pipes := g.pipes + [Pipe(g.width, SpawnHeight(g.height, r), false)])
  }

  /**
    The state the constructor has built by static/js/game.js:38, before its
    gameLoop call runs the first frame; a new or restarted game is this state
    after one `Update`.
  */
  function Init(width: real, height: real, r: real): (g: Game)
    requires 0.0 <= r < 1.0
    ensures !g.gameOver && g.score == 0
    ensures g.width == width && g.height == height
    ensures g.bird.x == width / 3.0 && g.bird.y == height / 2.0 && g.bird.velocity == 0.0
    ensures |g.pipes| == 1 && g.pipes[0].x == width && !g.pipes[0].passed
  {
    AddPipe(Game(width, height, false, 0, Bird(width / 3.0, height / 2.0, 0.0), []), r)
  }

  /** One tick of bird physics: gravity, then position. */
  function Fall(b: Bird): (b': Bird) {
    var v := b.velocity + Gravity;
    b.(velocity := v, y := b.y + v)
  }

  /** What the update loop does to one pipe. */
  datatype PipeOutcome = PipeOutcome(pipe: Pipe, collided: bool, scored: bool)

  /** The body of the update loop for one pipe: move it left, then either collide or score it. */
  function StepPipe(b: Bird, height: real, p: Pipe): (o: PipeOutcome)
    ensures o.pipe.x == p.x - PipeSpeed && o.pipe.topHeight == p.topHeight
    ensures o.collided <==> Collides(b, height, p.(x := p.x - PipeSpeed))
    ensures o.collided ==> o.pipe.passed == p.passed && !o.scored
    ensures o.scored <==> !p.passed && o.pipe.passed
    ensures p.passed ==> o.pipe.passed
    ensures !o.collided ==> (o.scored <==> !p.passed && p.x - PipeSpeed < b.x)
  {
    var moved := p.(x := p.x - PipeSpeed);
    if Collides(b, height, moved) then PipeOutcome(moved, true, false)
    else if !moved.passed && moved.x < b.x then PipeOutcome(moved.(passed := true), false, true)
    else PipeOutcome(moved, false, false)
  }

  /** The number of positions whose `passed` flag went from false to true. */
  function Flips(before: seq<Pipe>, after: seq<Pipe>): (n: nat)
    requires |before| == |after|
    ensures n <= |before|
    decreases |before|
  {
    if |before| == 0 then 0
    else (if !before[0].passed && after[0].passed then 1 else 0) + Flips(before[1..], after[1..])
  }

  /** The combined effect of the update loop over all pipes. */
  datatype Sweep = Sweep(pipes: seq<Pipe>, collided: bool, gained: nat)

  /** The update loop: every pipe is stepped; a collision does not stop later pipes. */
  function SweepPipes(b: Bird, height: real, ps: seq<Pipe>): (s: Sweep)
    ensures |s.pipes| == |ps|
    ensures forall i :: 0 <= i < |ps| ==> s.pipes[i] == StepPipe(b, height, ps[i]).pipe
    ensures forall i :: 0 <= i < |ps| ==> s.pipes[i].x == ps[i].x - PipeSpeed && s.pipes[i].topHeight == ps[i].topHeight
    ensures s.collided <==> exists i :: 0 <= i < |ps| && StepPipe(b, height, ps[i]).collided
    ensures s.gained == Flips(ps, s.pipes)
    decreases |ps|
  {
    if |ps| == 0 then Sweep([], false, 0)
    else
      var o := StepPipe(b, height, ps[0]);
      var rest := SweepPipes(b, height, ps[1..]);
      Sweep([o.pipe] + rest.pipes, o.collided || rest.collided, (if o.scored then 1 else 0) + rest.gained)
  }

  /** A pipe whose right edge is still right of the field's left boundary. */
  predicate OnScreen(p: Pipe) {
    p.x + PipeWidth > 0.0
  }

  /** The filter that drops off-screen pipes, keeping the others in order. */
  function Cull(ps: seq<Pipe>): (kept: seq<Pipe>)
    ensures |kept| <= |ps|
    ensures forall i :: 0 <= i < |kept| ==> OnScreen(kept[i])
    decreases |ps|
  {
    if |ps| == 0 then []
    else if OnScreen(ps[0]) then [ps[0]] + Cull(ps[1..])
    else Cull(ps[1..])
  }

  /** The spawn rule: the newest pipe has moved further than the spacing from the right edge. */
  predicate ShouldSpawn(width: real, ps: seq<Pipe>)
    requires |ps| > 0
  {
    ps[|ps| - 1].x < width - PipeSpacing
  }

  /** The first part of a running frame: bird physics, the loop over the pipes and the filter. */
  function Advance(g: Game): (g': Game) {
    var b := Fall(g.bird);
    var s := SweepPipes(b, g.height, g.pipes);
    g.(gameOver := s.collided, score := g.score + s.gained, bird := b, pipes := Cull(s.pipes))
  }

  /** The spawn rule, applied once the filter has run. */
  function SpawnIfDue(g: Game, r: real): (g': Game)
    requires 0.0 <= r < 1.0 && |g.pipes| > 0
  {
    if ShouldSpawn(g.width, g.pipes) then AddPipe(g, r) else g
  }

  /**
    update: one frame. Nothing happens once the game is over. When the filter
    leaves no pipe, reading the last pipe throws; the state written so far is kept.
  */
  function Update(g: Game, r: real): (st: Step)
    requires 0.0 <= r < 1.0
    ensures g.gameOver ==> st == Step(g, false)
    ensures !g.gameOver ==> st.game.bird.x == g.bird.x
    ensures !g.gameOver ==> st.game.bird.velocity == g.bird.velocity + Gravity
    ensures !g.gameOver ==> st.game.bird.y == g.bird.y + st.game.bird.velocity
    ensures st.game.score >= g.score && st.game.width == g.width && st.game.height == g.height
    ensures !g.gameOver ==> (st.threw <==> st.game.pipes == [])
  {
    if g.gameOver then Step(g, false)
    else
      var g1 := Advance(g);
      if |g1.pipes| == 0 then Step(g1, true)
      else Step(SpawnIfDue(g1, r), false)
  }

  /** Every frame in `evs` carries a draw of Math.random(). */
  predicate DrawsValid(evs: seq<Event>) {
    forall i :: 0 <= i < |evs| ==> (evs[i].Frame? ==> 0.0 <= evs[i].r < 1.0)
  }

  /** The game loop and the input listeners: events applied in order, stopping at a frame that throws. */
  function Play(g: Game, evs: seq<Event>): (st: Step)
    requires DrawsValid(evs)
    ensures st.game.score >= g.score
    ensures g.gameOver ==> st.game.gameOver
    ensures st.game.width == g.width && st.game.height == g.height
    decreases |evs|
  {
    if |evs| == 0 then Step(g, false)
    else
      match evs[0]
      case Press => Play(Jump(g), evs[1..])
      case Frame(r) =>
        var st := Update(g, r);
        if st.threw then st else Play(st.game, evs[1..])
  }
}

=== FILE: invariant.dfy ===
/**
  The reachable-state invariant: the pipe list is never empty, ascends strictly
  in x, and its newest pipe is within one spacing of the right edge. It is what
  keeps the unguarded read of the last pipe in `update` from throwing, and it
  needs a field wide enough that a pipe cannot scroll off before the next spawns.
*/
module Invariant {
  import opened FlappyBird
  import opened PipeFacts

  /**
    Field sizes for which the game cannot throw: the newest pipe is at least
    width - PipeSpacing - PipeSpeed after a move and must still be on screen,
    and the spawn range for top segments must not be empty.
  */
  predicate ValidField(width: real, height: real) {
    width > PipeSpacing + PipeSpeed - PipeWidth && height >= 2.0 * MinHeight + PipeGap
  }

  predicate Valid(g: Game) {
    && ValidField(g.width, g.height)
    && g.bird.x == g.width / 3.0
    && |g.pipes| > 0
    && Ascending(g.pipes)
    && g.width - PipeSpacing <= g.pipes[|g.pipes| - 1].x <= g.width
    && HeightsInRange(g.pipes, g.height)
  }

  /** A fresh game on a valid field is valid. */
  lemma InitValid(width: real, height: real, r: real)
    requires 0.0 <= r < 1.0 && ValidField(width, height)
    ensures Valid(Init(width, height, r))
  {
  }

  /** Jumping keeps the invariant. */
  lemma JumpValid(g: Game)
    requires Valid(g)
    ensures Valid(Jump(g))
  {
  }

  /** The loop moves every pipe by the same amount and keeps the top segments. */
  lemma SweepKeepsShape(g: Game, b: Bird)
    requires Valid(g)
    ensures var ps := SweepPipes(b, g.height, g.pipes).pipes;
            && Ascending(ps)
            && ps[|ps| - 1].x == g.pipes[|g.pipes| - 1].x - PipeSpeed
            && HeightsInRange(ps, g.height)
  {
  }

  /** Every top segment lies in the spawn range. */
  predicate HeightsInRange(ps: seq<Pipe>, height: real) {
    forall i :: 0 <= i < |ps| ==> MinHeight <= ps[i].topHeight <= height - PipeGap - MinHeight
  }

  /** A suffix of an ascending, in-range list is ascending and in range. */
  lemma SuffixKeepsShape(ps: seq<Pipe>, k: nat, height: real)
    requires k <= |ps| && Ascending(ps) && HeightsInRange(ps, height)
    ensures Ascending(ps[k..]) && HeightsInRange(ps[k..], height)
  {
    assert forall i :: 0 <= i < |ps| - k ==> ps[k..][i] == ps[k + i];
  }

  /** Filtering an ascending list whose newest pipe is on screen keeps that pipe last and keeps the shape. */
  lemma CullKeepsNewest(ps: seq<Pipe>, height: real)
    requires |ps| > 0 && Ascending(ps) && OnScreen(ps[|ps| - 1]) && HeightsInRange(ps, height)
    ensures var kept := Cull(ps);
            && |kept| > 0 && Ascending(kept) && kept[|kept| - 1] == ps[|ps| - 1]
            && HeightsInRange(kept, height)
  {
    var k := CullSuffix(ps);
    assert k < |ps|;
    SuffixKeepsShape(ps, k, height);
  }

  /** The pipes that survive the filter in a running frame: non-empty, ascending, and in range. */
  lemma KeptShape(g: Game, b: Bird) returns (kept: seq<Pipe>)
    requires Valid(g)
    ensures kept == Cull(SweepPipes(b, g.height, g.pipes).pipes)
    ensures |kept| > 0 && Ascending(kept) && HeightsInRange(kept, g.height)
    ensures g.width - PipeSpacing - PipeSpeed <= kept[|kept| - 1].x <= g.width - PipeSpeed
  {
    var ps := SweepPipes(b, g.height, g.pipes).pipes;
    SweepKeepsShape(g, b);
    CullKeepsNewest(ps, g.height);
    kept := Cull(ps);
  }

  /** Appending a spawned pipe to a non-empty ascending list whose newest pipe is left of the spawn threshold keeps it valid. */
  lemma SpawnValid(g: Game, r: real)
    requires 0.0 <= r < 1.0 && ValidField(g.width, g.height) && g.bird.x == g.width / 3.0
    requires |g.pipes| > 0 && Ascending(g.pipes) && ShouldSpawn(g.width, g.pipes)
    requires HeightsInRange(g.pipes, g.height)
    ensures Valid(AddPipe(g, r))
  {
    var ps' := AddPipe(g, r).pipes;
    assert forall i :: 0 <= i < |g.pipes| ==> ps'[i] == g.pipes[i];
  }

  /** The spawn rule restores the invariant on a list whose newest pipe has moved by one step. */
  lemma SpawnIfDueValid(g1: Game, r: real)
    requires 0.0 <= r < 1.0 && ValidField(g1.width, g1.height) && g1.bird.x == g1.width / 3.0
    requires |g1.pipes| > 0 && Ascending(g1.pipes) && HeightsInRange(g1.pipes, g1.height)
    requires g1.width - PipeSpacing - PipeSpeed <= g1.pipes[|g1.pipes| - 1].x <= g1.width - PipeSpeed
    ensures Valid(SpawnIfDue(g1, r))
  {
    if ShouldSpawn(g1.width, g1.pipes) {
      SpawnValid(g1, r);
    }
  }

  /** A frame from a valid state never throws and yields a valid state. */
  lemma UpdateValid(g: Game, r: real)
    requires 0.0 <= r < 1.0 && Valid(g)
    ensures !Update(g, r).threw && Valid(Update(g, r).game)
  {
    if !g.gameOver {
      var kept := KeptShape(g, Fall(g.bird));
      var g1 := Advance(g);
      assert g1.pipes == kept && g1.bird.x == g.bird.x;
      SpawnIfDueValid(g1, r);
    }
  }

  /**
    What the constructor leaves behind: it builds `Init` and then calls gameLoop,
    which runs one frame before any press can arrive. On a valid field that frame
    neither ends the game nor scores: the bird has fallen one step and the single
    pipe has moved one step left.
  */
  lemma ConstructedState(width: real, height: real, r: real, r1: real)
    requires 0.0 <= r < 1.0 && 0.0 <= r1 < 1.0 && ValidField(width, height)
    ensures var g0 := Init(width, height, r);
            var st := Update(g0, r1);
            && !st.threw && Valid(st.game)
            && !st.game.gameOver && st.game.score == 0
            && st.game.bird == Bird(width / 3.0, height / 2.0 + Gravity, Gravity)
            && st.game.pipes == [g0.pipes[0].(x := width - PipeSpeed)]
  {
    var g0 := Init(width, height, r);
    InitValid(width, height, r);
    UpdateValid(g0, r1);
    var b := Fall(g0.bird);
    var p := g0.pipes[0];
    assert !Collides(b, height, p.(x := p.x - PipeSpeed));
    var s := SweepPipes(b, height, g0.pipes);
    assert s.pipes == [p.(x := width - PipeSpeed)];
    assert !s.collided && s.gained == 0;
    CullKeepsOnScreen(s.pipes);
  }

  /**
    The part of the invariant that decides whether a frame throws: only the pipes'
    left edges and the field width matter, whatever the height.
  */
  predicate Spaced(g: Game) {
    && g.width > PipeSpacing + PipeSpeed - PipeWidth
    && |g.pipes| > 0
    && Ascending(g.pipes)
    && g.width - PipeSpacing <= g.pipes[|g.pipes| - 1].x <= g.width
  }

  /** A suffix of an ascending list is ascending. */
  lemma AscendingSuffix(ps: seq<Pipe>, k: nat)
    requires k <= |ps| && Ascending(ps)
    ensures Ascending(ps[k..])
  {
    assert forall i :: 0 <= i < |ps| - k ==> ps[k..][i] == ps[k + i];
  }

  /** The pipes that survive the filter in a running frame from a spaced state: non-empty and ascending, newest one step left. */
  lemma SpacedKept(g: Game, b: Bird) returns (kept: seq<Pipe>)
    requires Spaced(g)
    ensures kept == Cull(SweepPipes(b, g.height, g.pipes).pipes)
    ensures |kept| > 0 && Ascending(kept)
    ensures kept[|kept| - 1].x == g.pipes[|g.pipes| - 1].x - PipeSpeed
  {
    var ps := SweepPipes(b, g.height, g.pipes).pipes;
    assert Ascending(ps);
    var k := CullSuffix(ps);
    assert OnScreen(ps[|ps| - 1]);
    AscendingSuffix(ps, k);
    kept := Cull(ps);
  }

  /** The spawn rule on a list whose newest pipe has moved by one step leaves a spaced state. */
  lemma SpacedSpawn(g1: Game, r: real)
    requires 0.0 <= r < 1.0 && g1.width > PipeSpacing + PipeSpeed - PipeWidth
    requires |g1.pipes| > 0 && Ascending(g1.pipes)
    requires g1.width - PipeSpacing - PipeSpeed <= g1.pipes[|g1.pipes| - 1].x <= g1.width - PipeSpeed
    ensures Spaced(SpawnIfDue(g1, r))
  {
    if ShouldSpawn(g1.width, g1.pipes) {
      var ps' := AddPipe(g1, r).pipes;
      assert forall i :: 0 <= i < |g1.pipes| ==> ps'[i] == g1.pipes[i];
    }
  }

  /**
    On any field wider than 142, of any height, a frame from a spaced state never
    reaches the unguarded read of an empty list and leaves a spaced state.
  */
  lemma SpacedNoThrow(g: Game, r: real)
    requires 0.0 <= r < 1.0 && Spaced(g)
    ensures !Update(g, r).threw && Spaced(Update(g, r).game)
  {
    if !g.gameOver {
      var kept := SpacedKept(g, Fall(g.bird));
      var g1 := Advance(g);
      assert g1.pipes == kept;
      SpacedSpawn(g1, r);
    }
  }

  /** Any run of frames and presses from a valid state never throws and stays valid. */
  lemma {:induction false} PlayValid(g: Game, evs: seq<Event>)
    requires Valid(g) && DrawsValid(evs)
    ensures !Play(g, evs).threw && Valid(Play(g, evs).game)
    decreases |evs|
  {
    if |evs| > 0 {
      assert DrawsValid(evs[1..]) by {
        forall i | 0 <= i < |evs[1..]| ensures (evs[1..][i].Frame? ==> 0.0 <= evs[1..][i].r < 1.0) {
          assert evs[1..][i] == evs[i + 1];
        }
      }
      match evs[0]
      case Press =>
        JumpValid(g);
        PlayValid(Jump(g), evs[1..]);
      case Frame(r) =>
        UpdateValid(g, r);
        PlayValid(Update(g, r).game, evs[1..]);
    }
  }

  /** On a field too narrow for the invariant, the last pipe can scroll off before a new one spawns, and the frame throws. */
  lemma NarrowFieldThrows()
    ensures var g := Game(100.0, 600.0, false, 1, Bird(100.0 / 3.0, 300.0, 0.0), [Pipe(-58.0, 50.0, true)]);
            Update(g, 0.0).threw && !Update(g, 0.0).game.gameOver
  {
    var g := Game(100.0, 600.0, false, 1, Bird(100.0 / 3.0, 300.0, 0.0), [Pipe(-58.0, 50.0, true)]);
    var s := SweepPipes(Fall(g.bird), g.height, g.pipes);
    assert s.pipes == [Pipe(-60.0, 50.0, true)];
    assert Cull(s.pipes) == [];
  }
}

=== FILE: pipe_facts.dfy ===
/**
  Facts about the pipe sequence: the off-screen filter keeps order and, on a
  sequence ascending in x, removes exactly a prefix.
*/
module PipeFacts {
  import opened FlappyBird

  /** Strictly ascending left edges: oldest pipe leftmost. */
  predicate Ascending(ps: seq<Pipe>) {
    forall i, j :: 0 <= i < j < |ps| ==> ps[i].x < ps[j].x
  }

  /** The filter keeps a sequence of on-screen pipes whole. */
  lemma {:induction false} CullKeepsOnScreen(ps: seq<Pipe>)
    requires forall i :: 0 <= i < |ps| ==> OnScreen(ps[i])
    ensures Cull(ps) == ps
    decreases |ps|
  {
    if |ps| > 0 {
      CullKeepsOnScreen(ps[1..]);
    }
  }

  /** The filter distributes over concatenation, so the relative order of kept pipes is preserved. */
  lemma {:induction false} CullAppend(a: seq<Pipe>, b: seq<Pipe>)
    ensures Cull(a + b) == Cull(a) + Cull(b)
    decreases |a|
  {
    if |a| > 0 {
      assert (a + b)[1..] == a[1..] + b;
      CullAppend(a[1..], b);
    } else {
      assert a + b == b;
    }
  }

  /** The filter keeps exactly the on-screen pipes of its input. */
  lemma {:induction false} CullExact(ps: seq<Pipe>, p: Pipe)
    ensures p in Cull(ps) <==> p in ps && OnScreen(p)
    decreases |ps|
  {
    if |ps| > 0 {
      CullExact(ps[1..], p);
      assert ps == [ps[0]] + ps[1..];
    }
  }

  /** Dropping the oldest pipe keeps a list ascending. */
  lemma AscendingTail(ps: seq<Pipe>)
    requires |ps| > 0 && Ascending(ps)
    ensures Ascending(ps[1..])
  {
    forall i, j | 0 <= i < j < |ps[1..]| ensures ps[1..][i].x < ps[1..][j].x {
      assert ps[1..][i] == ps[i + 1] && ps[1..][j] == ps[j + 1];
    }
  }

  /** On an ascending sequence the filter removes exactly a prefix of off-screen pipes. */
  lemma {:induction false} CullSuffix(ps: seq<Pipe>) returns (k: nat)
    requires Ascending(ps)
    ensures k <= |ps| && Cull(ps) == ps[k..]
    ensures forall i :: 0 <= i < k ==> !OnScreen(ps[i])
    decreases |ps|
  {
    if |ps| == 0 {
      k := 0;
    } else if OnScreen(ps[0]) {
      forall i | 0 <= i < |ps[1..]| ensures OnScreen(ps[1..][i]) {
        assert ps[1..][i] == ps[i + 1] && ps[0].x < ps[i + 1].x;
      }
      CullKeepsOnScreen(ps[1..]);
      assert ps == [ps[0]] + ps[1..];
      k := 0;
    } else {
      AscendingTail(ps);
      var k' := CullSuffix(ps[1..]);
      k := k' + 1;
      assert ps[1..][k'..] == ps[k..];
      forall i | 0 <= i < k ensures !OnScreen(ps[i]) {
        if i > 0 {
          assert ps[1..][i - 1] == ps[i];
        }
      }
    }
  }
}

=== FILE: tick_facts.dfy ===
/**
  What one frame of `update` does, stated in terms of the state before it:
  the collision verdict, the score, the pipe list, and the terminal state.
*/
module TickFacts {
  import opened FlappyBird

  /** Pipe `p` after its move this frame collides with bird `b`. */
  predicate HitAfterMove(b: Bird, height: real, p: Pipe) {
    Collides(b, height, p.(x := p.x - PipeSpeed))
  }

  /** The loop reports a collision exactly when some pipe, after its move, collides. */
  lemma SweepCollidedIffHit(b: Bird, height: real, ps: seq<Pipe>)
    ensures SweepPipes(b, height, ps).collided <==> exists i :: 0 <= i < |ps| && HitAfterMove(b, height, ps[i])
  {
    if SweepPipes(b, height, ps).collided {
      var i :| 0 <= i < |ps| && StepPipe(b, height, ps[i]).collided;
      assert HitAfterMove(b, height, ps[i]);
    }
    if exists i :: 0 <= i < |ps| && HitAfterMove(b, height, ps[i]) {
      var i :| 0 <= i < |ps| && HitAfterMove(b, height, ps[i]);
      assert StepPipe(b, height, ps[i]).collided;
    }
  }

  /** A running frame ends the game exactly when some pipe, after its move, collides with the fallen bird. */
  lemma UpdateGameOverIffHit(g: Game, r: real)
    requires 0.0 <= r < 1.0 && !g.gameOver
    ensures Update(g, r).game.gameOver <==>
              exists i :: 0 <= i < |g.pipes| && HitAfterMove(Fall(g.bird), g.height, g.pipes[i])
  {
    assert Update(g, r).game.gameOver == SweepPipes(Fall(g.bird), g.height, g.pipes).collided;
    SweepCollidedIffHit(Fall(g.bird), g.height, g.pipes);
  }

  /** A bird that leaves the field ends the game, whatever pipe is on screen. */
  lemma OutOfFieldEndsGame(g: Game, r: real)
    requires 0.0 <= r < 1.0 && !g.gameOver && |g.pipes| > 0
    requires OutOfField(Fall(g.bird), g.height)
    ensures Update(g, r).game.gameOver
  {
    UpdateGameOverIffHit(g, r);
    assert HitAfterMove(Fall(g.bird), g.height, g.pipes[0]);
  }

  /**
    The score rises by exactly the number of pipes whose `passed` flag flipped
    in the loop; a pipe that collided keeps its flag and adds nothing.
  */
  lemma UpdateScore(g: Game, r: real)
    requires 0.0 <= r < 1.0 && !g.gameOver
    ensures var s := SweepPipes(Fall(g.bird), g.height, g.pipes);
            && Update(g, r).game.score == g.score + Flips(g.pipes, s.pipes)
            && (forall i :: 0 <= i < |g.pipes| && HitAfterMove(Fall(g.bird), g.height, g.pipes[i]) ==>
                  s.pipes[i].passed == g.pipes[i].passed)
            && (forall i :: 0 <= i < |g.pipes| ==> (g.pipes[i].passed ==> s.pipes[i].passed))
  {
  }

  /** Flips counts exactly the pipes that were unscored, did not collide and whose moved edge is left of the bird. */
  lemma {:induction false} FlipsCountsScorable(b: Bird, height: real, ps: seq<Pipe>)
    ensures Flips(ps, SweepPipes(b, height, ps).pipes) == CountScorable(b, height, ps)
    decreases |ps|
  {
    if |ps| > 0 {
      var s := SweepPipes(b, height, ps);
      assert s.pipes[1..] == SweepPipes(b, height, ps[1..]).pipes;
      FlipsCountsScorable(b, height, ps[1..]);
    }
  }

  /** The scoring rule of the loop, read pipe by pipe from the state before the frame. */
  predicate Scorable(b: Bird, height: real, p: Pipe) {
    !p.passed && !HitAfterMove(b, height, p) && p.x - PipeSpeed < b.x
  }

  /** How many pipes the loop scores, counted from the state before the frame. */
  function CountScorable(b: Bird, height: real, ps: seq<Pipe>): (n: nat)
    decreases |ps|
  {
    if |ps| == 0 then 0
    else (if Scorable(b, height, ps[0]) then 1 else 0) + CountScorable(b, height, ps[1..])
  }

  /**
    The pipe list after a running frame that did not throw: the moved pipes with
    off-screen ones dropped, plus at most one new unscored pipe at the right edge.
  */
  lemma UpdatePipes(g: Game, r: real)
    requires 0.0 <= r < 1.0 && !g.gameOver
    ensures var kept := Cull(SweepPipes(Fall(g.bird), g.height, g.pipes).pipes);
            var ps' := Update(g, r).game.pipes;
            && (kept == [] ==> Update(g, r).threw && ps' == [])
            && (kept != [] && !ShouldSpawn(g.width, kept) ==> ps' == kept)
            && (kept != [] && ShouldSpawn(g.width, kept) ==>
                  ps' == kept + [Pipe(g.width, SpawnHeight(g.height, r), false)])
  {
  }

  /** Once the game is over, no sequence of frames and presses changes anything. */
  lemma {:induction false} FrozenWhenOver(g: Game, evs: seq<Event>)
    requires g.gameOver && DrawsValid(evs)
    ensures Play(g, evs) == Step(g, false)
    decreases |evs|
  {
    if |evs| > 0 {
      assert DrawsValid(evs[1..]) by {
        forall i | 0 <= i < |evs[1..]| ensures (evs[1..][i].Frame? ==> 0.0 <= evs[1..][i].r < 1.0) {
          assert evs[1..][i] == evs[i + 1];
        }
      }
      FrozenWhenOver(g, evs[1..]);
    }
  }

  /** A 600-high field spawns top segments between 50 and 400 for any draw. */
  lemma SpawnRangeExample(g: Game, r: real)
    requires 0.0 <= r < 1.0 && g.height == 600.0
    ensures 50.0 <= AddPipe(g, r).pipes[|g.pipes|].topHeight < 400.0
  {
  }
}
